=== FILE: README.md ===
# Snyk tool installer — a Dafny model

This project models the decision logic of the Jenkins tool installer for the
Snyk CLI (`SnykInstaller`) and the memoised platform lookup of the tool
installation (`SnykInstallation`).

- **Freshness check** (`isUpToDate`). It reads the `.timestamp` marker in
  the target directory and strips one trailing line terminator
  (commons-lang `chomp`). It parses the text as a Java `long`, and text
  that does not parse counts as 0. The age `now - marker` is then judged
  against the "update every N hours" policy. A marker at or after `now` is
  fresh; otherwise the marker is fresh only when its age is strictly below
  the interval.
- **Installation state machine** (`performInstallation`). A fresh marker
  returns the target at once. Otherwise `npm --version` is launched and its
  answer selects exactly one strategy:
  - **npm package install.** A non-zero exit is a soft return that leaves
    the marker alone. A launch exception or a failing marker write is a
    `ToolDetectionException`.
  - **Direct download of the two wrapper binaries.** The node must be
    online and report its platform; either failure is a plain
    `IOException`. The installer then creates the directory, downloads both
    wrappers, and sets their executable bit when the node is not Windows.
    It then writes `.installedFrom` with the URL of the main wrapper, not
    the snyk-to-html one, and finally `.timestamp`. Any failure there is a
    `ToolDetectionException`, and the marker is left as it was.
- **Platform cache** (`getPlatform`). A cached platform is returned without
  detection. Otherwise the platform is detected from the current computer's
  node, or from the local process when there is no current computer, and
  cached on success. A computer without a node fails without caching.

Jenkins is not part of the model. Every question the installer asks the
node is an oracle field of `Installer.Node`:

- whether the node is online and whether it runs Windows;
- the platform the node reports;
- the outcomes of `npm --version` and `npm install`;
- whether `mkdirs` succeeds;
- each download's transfer and executable-bit outcome;
- which marker writes throw.

The two `Instant.now()` readings (line 81 and lines 121/147) are the two
fields of `Installer.Clock`. URL resolution is the `DownloadService`
function pair. Platform detection in `SnykInstallation` is the `Detector`
function pair. The target directory is a map from file name to
`FileEntry(content, executable)`.

The result of an installation is an `Outcome` with three parts:

- the returned path or the thrown `Failure`;
- the directory afterwards;
- the trace of node operations issued, in order.

A failed write still shows in the trace, because the call was made, so the
promise that a marker was *not written* is stated on the directory.

Files, one module each: `wrappers.dfy` (Option, Result), `tools.dfy`
(Platform, Failure), `java_text.dfy` (`String.trim`, `chomp`,
`Long.parseLong`, `String.valueOf(long)`), `workspace.dfy` (the target
directory), `freshness.dfy`, `freshness_long.dfy` (the check in 64-bit
arithmetic, see Findings), `installer.dfy`, `installer_properties.dfy`,
`installation.dfy`.

## Model

| member | source | states |
|---|---|---|
| JavaText.Trim | src/main/java/io/snyk/jenkins/tools/SnykInstaller.java:110 | the result is an infix of the input, and only characters at or below U+0020 are cut from either end; a non-empty result starts and ends with a non-blank character; the result is empty exactly when the input is all blank |
| JavaText.FixEmptyAndTrim | src/main/java/io/snyk/jenkins/tools/SnykInstaller.java:110 | a null or blank version becomes null; any other version becomes its non-empty trimmed text |
| JavaText.Chomp | src/main/java/io/snyk/jenkins/tools/SnykInstaller.java:72 | the result is a prefix of the marker text; it differs from the text exactly when the text ends in `\n` or `\r`; what was removed is one terminator, and `\r\n` counts as one |
| JavaText.ChompAppendedTerminator | src/main/java/io/snyk/jenkins/tools/SnykInstaller.java:72 | chomp removes exactly one appended `\n`, `\r` or `\r\n` from a text that does not already end in a line break |
| JavaText.ParseLong | src/main/java/io/snyk/jenkins/tools/SnykInstaller.java:74-80 | parsing never raises; a parsed value is a `long`; empty text fails; every character after an optional leading sign must be a digit; the sign fixes the sign of the value; an unsigned or `+`-signed digit string parses to its decimal value exactly when that fits in a `long`, a `-`-signed one to its negation exactly when that fits, and any other digit string fails |
| JavaText.NatDigits | src/main/java/io/snyk/jenkins/tools/SnykInstaller.java:121 | the digits written for a timestamp are non-empty, all decimal, without a leading zero, and denote the number written |
| JavaText.FormatLong | src/main/java/io/snyk/jenkins/tools/SnykInstaller.java:121 | `String.valueOf(long)`: a non-negative value is written as its canonical decimal digits, a negative one as `-` and the canonical digits of its magnitude; the text never ends in a line break |
| JavaText.ParseFormatRoundTrip | src/main/java/io/snyk/jenkins/tools/SnykInstaller.java:121 | every `long` written with `String.valueOf` parses back to itself |
| Workspace.WriteFile | src/main/java/io/snyk/jenkins/tools/SnykInstaller.java:146-147 | `FilePath.write` creates or replaces the named file with exactly the given text, keeps the executable bit of a file that already existed, leaves a new file non-executable and changes no other file |
| Freshness.MarkerValue | src/main/java/io/snyk/jenkins/tools/SnykInstaller.java:72-80 | one trailing line terminator is removed, then the text is read as a signed `long` (an optional `+` or `-`, then decimal digits, within range); the timestamp read is always a `long`; unparsable (corrupt) text reads as 0; plain digit text in range reads as its value |
| Freshness.MarkerRoundTrip | src/main/java/io/snyk/jenkins/tools/SnykInstaller.java:72-80 | a marker written as `String.valueOf(t)`, with or without one trailing terminator, reads back as `t` |
| Freshness.IsUpToDate | src/main/java/io/snyk/jenkins/tools/SnykInstaller.java:66-89 | no marker means not up to date; a marker at or after `now` is up to date under any policy; otherwise up to date exactly when the age is strictly below `hours * 3600000`; a policy of 0 hours or less makes every past marker stale |
| Freshness.CorruptMarkerCountsAsEpoch | src/main/java/io/snyk/jenkins/tools/SnykInstaller.java:74-80 | with an unparsable marker the answer is that of a marker at time 0 |
| Freshness.StaleStaysStale | src/main/java/io/snyk/jenkins/tools/SnykInstaller.java:83-88 | a stale installation stays stale at every later time |
| Freshness.LongerPolicyKeepsFresh | src/main/java/io/snyk/jenkins/tools/SnykInstaller.java:87-88 | a fresh installation stays fresh under any longer policy |
| Freshness.FreshAfterStamp | src/main/java/io/snyk/jenkins/tools/SnykInstaller.java:72-88 | after the marker holds `String.valueOf(stamp)`, the check at `now` says up to date exactly when `now <= stamp` or `now - stamp` is below the interval |
| FreshnessLong.WrapLong | src/main/java/io/snyk/jenkins/tools/SnykInstaller.java:83 | the `long` subtraction result lies in the `long` range, equals the exact value when that fits, and differs from it by a multiple of 2^64 |
| FreshnessLong.HoursToMillis | src/main/java/io/snyk/jenkins/tools/SnykInstaller.java:87 | `TimeUnit.HOURS.toMillis` equals the exact product when it fits in a `long` and saturates at the nearer bound otherwise |
| FreshnessLong.IsUpToDateAsWritten | src/main/java/io/snyk/jenkins/tools/SnykInstaller.java:66-89 | the check in `long` arithmetic; no marker means stale; it agrees with `Freshness.IsUpToDate` whenever neither the age nor the interval overflows |
| FreshnessLong.OverflowingAgeLooksFresh | src/main/java/io/snyk/jenkins/tools/SnykInstaller.java:83-86 | when the age exceeds `Long.MAX_VALUE`, the code as written says up to date while the intended check says stale |
| FreshnessLong.MinimalMarkerNeverExpires | src/main/java/io/snyk/jenkins/tools/SnykInstaller.java:83-86 | a marker holding `-9223372036854775808` is up to date as written at every positive time, and stale under the intended check |
| Installer.SnykPackage | src/main/java/io/snyk/jenkins/tools/SnykInstaller.java:110 | the npm package argument is `snyk@` followed by the trimmed version, or by `null` when the version is null or blank |
| Installer.NpmInstallCommand | src/main/java/io/snyk/jenkins/tools/SnykInstaller.java:109-110 | the npm command line is `npm install --prefix <target>`, then the `snyk@` package at the trimmed version (`snyk@null` when the version is null or blank), then `snyk-to-html` |
| Installer.IsNpmAvailable | src/main/java/io/snyk/jenkins/tools/SnykInstaller.java:91-104 | npm counts as available exactly when `npm --version` exits with 0; a non-zero exit or an exception while launching means unavailable |
| Installer.InstallAsNpmPackage | src/main/java/io/snyk/jenkins/tools/SnykInstaller.java:106-128 | launches exactly `npm install --prefix <target> snyk@<version> snyk-to-html`; a non-zero exit returns the target with the directory unchanged; exit 0 writes `.timestamp`; a launch exception or a failing marker write throws the npm tool detection failure and changes nothing; the operations are that one launch and, only after exit 0, the one write of `.timestamp` with the clock reading |
| Installer.RunDownloader | src/main/java/io/snyk/jenkins/tools/SnykInstaller.java:211-223 | succeeds exactly when the transfer completes and, off Windows, the executable bit is granted; the downloaded file then holds the body and, off Windows, is executable; a refused bit leaves the downloaded file in place; no other file changes |
| Installer.DownloadBoth | src/main/java/io/snyk/jenkins/tools/SnykInstaller.java:143-145 | creating the target is the first operation and, when it fails, the only one, with nothing changed; then the main wrapper is downloaded, and snyk-to-html is downloaded after it only when the main download succeeded; it succeeds exactly when both downloads do; only the two wrapper files change |
| Installer.WriteMarkers | src/main/java/io/snyk/jenkins/tools/SnykInstaller.java:146-151 | writes `.installedFrom` with the main wrapper's URL, then `.timestamp`; a failing write throws the binary tool detection failure and leaves `.timestamp` as it was; no other file changes |
| Installer.DownloadAndMark | src/main/java/io/snyk/jenkins/tools/SnykInstaller.java:140-152 | succeeds exactly when mkdirs, both downloads, both executable bits (off Windows) and both marker writes succeed; then the files written are, in order, the two wrappers, `.installedFrom` (main wrapper URL) and `.timestamp`; any failure throws the binary tool detection failure and leaves `.timestamp` as it was |
| Installer.InstallAsSingleBinary | src/main/java/io/snyk/jenkins/tools/SnykInstaller.java:130-155 | an offline node throws an I/O failure before any operation; an undetectable platform throws an I/O failure naming the node, not a tool detection failure, with nothing written; once a platform is reported it succeeds exactly when mkdirs, both downloads, both executable bits (off Windows) and both marker writes succeed, and every failure is the binary tool detection failure; on success it returns the target, the wrappers hold the downloaded bodies and are executable off Windows, `.installedFrom` holds the main wrapper URL and `.timestamp` holds the clock reading; no file other than the two wrappers and the two markers changes; no process is launched |
| Installer.InstallWithStrategy | src/main/java/io/snyk/jenkins/tools/SnykInstaller.java:59-63 | npm available means only the npm install runs, as one launch and at most the one marker write; it throws the npm tool detection failure exactly when npm cannot be run or the marker write after exit 0 fails, a non-zero exit leaves the directory as it was and exit 0 writes the marker; npm unavailable means no process is launched and the binary install decides: offline and undetectable nodes throw their I/O failures, otherwise it succeeds exactly when every binary step does and fails with the binary tool detection failure; a binary success writes, in order, the two wrappers, `.installedFrom` with the main wrapper URL and `.timestamp` with the clock reading, and no other file changes; a thrown failure never changes `.timestamp` |
| Installer.PerformInstallation | src/main/java/io/snyk/jenkins/tools/SnykInstaller.java:50-64 | a fresh marker returns the target with the directory unchanged and no operation issued; otherwise `npm --version` is the first operation and the returned value or thrown failure, the directory afterwards and the remaining operations are those of the selected strategy; every normal return is the target; a changed marker implies a normal return and holds the clock reading |
| InstallerProperties.SecondCallIsNoOp | src/main/java/io/snyk/jenkins/tools/SnykInstaller.java:50-56 | after a call that wrote the marker, a second call within the policy interval returns the same path, issues no operation and changes nothing, whatever the node would answer |
| InstallerProperties.NpmSoftFailureKeepsMarker | src/main/java/io/snyk/jenkins/tools/SnykInstaller.java:116-120 | a non-zero npm exit returns the target, leaves the directory and its marker untouched, and issues only the probe and the install launches |
| InstallerProperties.NpmSuccessStampsMarker | src/main/java/io/snyk/jenkins/tools/SnykInstaller.java:121 | a successful npm install writes `.timestamp`, which reads back as the clock reading |
| InstallerProperties.RefusedExecutableBitForcesRetry | src/main/java/io/snyk/jenkins/tools/SnykInstaller.java:216-220 | a refused executable bit off Windows throws the binary failure with the main wrapper already on disk; `.timestamp` is untouched, so the installation is still not up to date |
| InstallerProperties.BinaryInstallEndToEnd | src/main/java/io/snyk/jenkins/tools/SnykInstaller.java:140-154 | with no prior marker and no npm on a non-Windows node, both wrappers are downloaded under the platform's names and made executable, `.installedFrom` holds the main wrapper URL, and `.timestamp` reads back as the clock reading |
| InstallerProperties.NpmCommandLine | src/main/java/io/snyk/jenkins/tools/SnykInstaller.java:110 | the version ` 1.2.3\n` gives `snyk@1.2.3`; a blank or null version gives `snyk@null` |
| Installation.NewSnykInstallation | src/main/java/io/snyk/tools/SnykInstallation.java:25-28 | the public constructor leaves the platform cache empty |
| Installation.NewSnykInstallationWith | src/main/java/io/snyk/tools/SnykInstallation.java:30-33 | the protected constructor seeds the cache with the given, possibly null, platform |
| Installation.ForEnvironment | src/main/java/io/snyk/tools/SnykInstallation.java:35-38 | always answers null |
| Installation.ForNode | src/main/java/io/snyk/tools/SnykInstallation.java:40-43 | always answers null |
| Installation.GetPlatform | src/main/java/io/snyk/tools/SnykInstallation.java:45-64 | a cached platform is answered with no detection and no change; a computer without a node fails as offline with no detection and no caching; a computer with a node detects `Platform.of(node)`; no computer detects `Platform.current()`; a success is cached; a failure is not cached and is the tool detection exception detection threw, unchanged |
| Installation.CachedPlatformIsStable | src/main/java/io/snyk/tools/SnykInstallation.java:46-48 | with a platform cached, any series of lookups answers it every time, detects nothing and leaves the installation unchanged |
| Installation.FirstAnswerIsFinal | src/main/java/io/snyk/tools/SnykInstallation.java:45-63 | in any series of lookups, once one answers a platform, every later one answers the same platform |
| Installation.DetectsOnlyAfterFailures | src/main/java/io/snyk/tools/SnykInstallation.java:48-61 | a series of lookups detects at most once more than it fails, and never when the platform was cached beforehand |

## Left out

- Freshness.IsUpToDate: uses mathematical integers. It leaves out the `long` wrap-around of `now - marker` (line 83) and the saturation of `TimeUnit.HOURS.toMillis` (line 87). Both are modelled separately in `FreshnessLong` and reported under Findings.
- A null `updatePolicyIntervalHours` is not modelled. It is a `Long` and would throw a `NullPointerException` at line 87, which is reached only when the marker is in the past. The policy is an `int` here.
- I/O errors from `marker.exists()` and `readToString()` inside `isUpToDate` are not modelled. They would propagate as `IOException`; the model reads the marker from the directory map.
- JavaText.ParseLong: accepts ASCII digits only. `Long.parseLong` also accepts other Unicode decimal digits, which here count as unparsable and read as 0.
- `InterruptedException` and cancellation of a blocking remote call are not modelled.
- The files npm itself installs under the target are not tracked. The directory map holds only the files this installer writes.
- A marker write that throws is modelled as leaving the file as it was. A possible truncation is not modelled.
- A transfer that times out after the 10-second connect or read timeouts is one of the `FetchFailed` outcomes. The timeouts themselves are not modelled.
- `downloadedFile.isFile()` at line 216 is taken to hold after a completed transfer.
- Logging is not modelled: the console lines and the SLF4J messages. Exception cause chains are not kept; a failure carries only its message.
- `preferredLocation` is not modelled: the target path is an input.
- The `Platform` enumeration, its detection (`Platform.of`, `Platform.current`) and `DownloadService` are external and not part of this model. They are the `Platform` value, the `Detector` functions and the `DownloadService` functions. `Functions.isWindows()` on the node is its own oracle field.
- Properties that depend on file names (the final content of each wrapper, and markers left untouched on failure) are stated when the platform's two wrapper names differ from each other and from the two marker names. This is the `SeparateFiles` condition.
- The `ToolProperty` list of the constructors is not modelled. The tool's name and home are stored.
- The descriptor classes, the `getVersion` and `getUpdatePolicyIntervalHours` getters and the `@DataBoundConstructor` plumbing are left out. So is `DescriptorImpl.getDefaultInstallers`, which calls a one-argument `SnykInstaller` constructor that `SnykInstaller.java` does not declare.
- No concurrency is modelled; the source has no locking to model.

## Findings

| source | as written | input that shows it | evidently intended | confidence | as-written member | corrected member |
|---|---|---|---|---|---|---|
| src/main/java/io/snyk/jenkins/tools/SnykInstaller.java:83-86 | `timestampNow - timestampFromFile` is computed in `long` and wraps around | `.timestamp` containing `-9223372036854775808`, any positive `now`, any policy whose interval fits in a `long`: the difference wraps negative and the installation is reported UP-TO-DATE forever | a marker older than the policy interval is stale, as for any other marker | low (such a marker is never written by the installer; it takes a hand-edited or corrupted file), not executed | FreshnessLong.IsUpToDateAsWritten (counterexample: FreshnessLong.MinimalMarkerNeverExpires) | Freshness.IsUpToDate (property: Freshness.StaleStaysStale, Freshness.FreshAfterStamp) |

=== FILE: freshness.dfy ===
/** The freshness check of the installer: whether the `.timestamp` marker in
    the target directory is recent enough, under the "update every N hours"
    policy, for the installation to be skipped. */
module Freshness {
  import opened Wrappers
  import opened JavaText
  import opened Workspace

  const MillisPerHour: int := 3_600_000

  /** The update interval in milliseconds (`TimeUnit.HOURS.toMillis`). */
  function IntervalMillis(hours: int): int {
    hours * MillisPerHour
  }

  /** The timestamp a marker file denotes: its text with one trailing line
      terminator removed, read as a `long`. Unparsable text never raises
      and counts as the epoch, 0. */
  function MarkerValue(content: string): (v: int)
    ensures IsLong(v)
    ensures ParseLong(Chomp(content)).None? ==> v == 0
    ensures ParseLong(Chomp(content)).Some? ==> v == ParseLong(Chomp(content)).value
    ensures AllDigits(content) && content != [] && DigitsValue(content) <= LongMax ==> v == DigitsValue(content)
  {
    match ParseLong(Chomp(content))
    case Some(v) => v
    case None => 0
  }

  /** A marker written as `String.valueOf(stamp)`, with or without one line
      terminator after it, reads back as `stamp`. */
  lemma {:induction false} MarkerRoundTrip(stamp: int, terminator: string)
    requires IsLong(stamp)
    requires terminator == [] || IsTerminator(terminator)
    ensures MarkerValue(FormatLong(stamp) + terminator) == stamp
  {
    ChompAppendedTerminator(FormatLong(stamp), terminator);
    ParseFormatRoundTrip(stamp);
  }

  /** `isUpToDate`: no marker means stale; a marker at or after `now` means
      fresh whatever the policy; otherwise fresh exactly when the marker is
      younger than the policy interval, compared strictly. */
  function IsUpToDate(dir: Dir, now: int, hours: int): (upToDate: bool)
    ensures TimestampFile !in dir ==> !upToDate
    ensures TimestampFile in dir && now <= MarkerValue(dir[TimestampFile].content) ==> upToDate
    ensures TimestampFile in dir && now > MarkerValue(dir[TimestampFile].content) ==>
              (upToDate <==> now - MarkerValue(dir[TimestampFile].content) < IntervalMillis(hours))
    ensures hours <= 0 ==> (upToDate <==> TimestampFile in dir && now <= MarkerValue(dir[TimestampFile].content))
  {
    if TimestampFile !in dir then false
    else
      var difference := now - MarkerValue(dir[TimestampFile].content);
      if difference <= 0 then true
      else difference < IntervalMillis(hours)
  }

  /** A marker whose text does not parse makes the installation as old as
      the epoch: stale unless the policy interval exceeds `now`. */
  lemma CorruptMarkerCountsAsEpoch(dir: Dir, now: int, hours: int)
    requires TimestampFile in dir && ParseLong(Chomp(dir[TimestampFile].content)).None?
    ensures IsUpToDate(dir, now, hours) <==> now <= 0 || now < IntervalMillis(hours)
  {
  }

  /** Time only makes a stale installation staler. */
  lemma StaleStaysStale(dir: Dir, now: int, later: int, hours: int)
    requires now <= later
    requires !IsUpToDate(dir, now, hours)
    ensures !IsUpToDate(dir, later, hours)
  {
  }

  /** A longer update interval never turns a fresh installation stale. */
  lemma LongerPolicyKeepsFresh(dir: Dir, now: int, hours: int, longer: int)
    requires hours <= longer
    requires IsUpToDate(dir, now, hours)
    ensures IsUpToDate(dir, now, longer)
  {
  }

  /** When the marker holds `String.valueOf(stamp)`, optionally followed
      by a line terminator, the installation is fresh at `now` exactly when
      `now` is not after `stamp` or the age is below the policy interval. */
  lemma {:induction false} FreshAfterStamp(dir: Dir, stamp: int, terminator: string, now: int, hours: int)
    requires IsLong(stamp)
    requires terminator == [] || IsTerminator(terminator)
    requires TimestampFile in dir && dir[TimestampFile].content == FormatLong(stamp) + terminator
    ensures IsUpToDate(dir, now, hours) <==> now <= stamp || now - stamp < IntervalMillis(hours)
  {
    MarkerRoundTrip(stamp, terminator);
  }
}

=== FILE: freshness_long.dfy ===
/** The freshness check as the Java code computes it, in 64-bit `long`
    arithmetic: the subtraction wraps around and `TimeUnit.HOURS.toMillis`
    saturates. The rest of the model uses the mathematical version in
    `Freshness`; this module exists to exhibit where the two differ. */
module FreshnessLong {
  import opened JavaText
  import opened Workspace
  import opened Freshness

  const TwoTo64: int := 0x1_0000_0000_0000_0000

  /** Two's-complement wrap-around of a mathematical integer into a `long`. */
  function WrapLong(n: int): (r: int)
    ensures IsLong(r)
    ensures IsLong(n) ==> r == n
    ensures (n - r) % TwoTo64 == 0
  {
    (n - LongMin) % TwoTo64 + LongMin
  }

  /** `TimeUnit.HOURS.toMillis(hours)`: the product, clamped to the `long`
      range instead of overflowing. */
  function HoursToMillis(hours: int): (r: int)
    requires IsLong(hours)
    ensures IsLong(r)
    ensures IsLong(IntervalMillis(hours)) ==> r == IntervalMillis(hours)
    ensures IntervalMillis(hours) > LongMax ==> r == LongMax
    ensures IntervalMillis(hours) < LongMin ==> r == LongMin
  {
    var over := LongMax / MillisPerHour;
    if hours > over then LongMax
    else if hours < -over then LongMin
    else hours * MillisPerHour
  }

  /** `isUpToDate` with `long` arithmetic at SnykInstaller.java lines 83 and
      87. It agrees with `Freshness.IsUpToDate` whenever neither the age nor
      the interval leaves the `long` range. */
  function IsUpToDateAsWritten(dir: Dir, now: int, hours: int): (upToDate: bool)
    requires IsLong(now) && IsLong(hours)
    ensures TimestampFile !in dir ==> !upToDate
    ensures TimestampFile in dir
            && IsLong(now - MarkerValue(dir[TimestampFile].content))
            && IsLong(IntervalMillis(hours))
            ==> upToDate == IsUpToDate(dir, now, hours)
  {
    if TimestampFile !in dir then false
    else
      var difference := WrapLong(now - MarkerValue(dir[TimestampFile].content));
      if difference <= 0 then true
      else difference < HoursToMillis(hours)
  }

  /** Values just above the `long` range wrap to the bottom of it. */
  lemma WrapAboveRange(n: int)
    requires LongMax < n < LongMax + TwoTo64
    ensures WrapLong(n) == n - TwoTo64
  {
    var k := n - LongMin - TwoTo64;
    assert 0 <= k < TwoTo64;
    assert (k + TwoTo64) % TwoTo64 == k;
  }

  /** Whenever the age of the marker exceeds the `long` range, the Java
      subtraction wraps to a negative number and the installation counts
      as up to date, while the intended check finds it stale under every
      policy whose interval fits in a `long`. */
  lemma OverflowingAgeLooksFresh(dir: Dir, now: int, hours: int)
    requires TimestampFile in dir && IsLong(now)
    requires now - MarkerValue(dir[TimestampFile].content) > LongMax
    requires 0 <= hours && IntervalMillis(hours) <= LongMax
    ensures IsUpToDateAsWritten(dir, now, hours)
    ensures !IsUpToDate(dir, now, hours)
  {
    WrapAboveRange(now - MarkerValue(dir[TimestampFile].content));
  }

  /** A marker holding `Long.MIN_VALUE` never expires in the Java code: at
      every positive clock reading its age overflows. */
  lemma {:induction false} MinimalMarkerNeverExpires(dir: Dir, marker: int, now: int, hours: int)
    requires marker == LongMin
    requires 0 < now <= LongMax
    requires 0 <= hours && IntervalMillis(hours) <= LongMax
    ensures TimestampFile in dir && dir[TimestampFile].content == FormatLong(marker) ==>
              IsUpToDateAsWritten(dir, now, hours) && !IsUpToDate(dir, now, hours)
  {
    if TimestampFile in dir && dir[TimestampFile].content == FormatLong(marker) {
      MarkerRoundTrip(marker, "");
      assert FormatLong(marker) + "" == FormatLong(marker);
      OverflowingAgeLooksFresh(dir, now, hours);
    }
  }
}

=== FILE: installation.dfy ===
/** `SnykInstallation`: the tool installation entity and its memoised,
    lazily detected platform. The entity is a value; `GetPlatform` returns
    the entity as it is after the call alongside the answer. */
module Installation {
  import opened Wrappers
  import opened Tools

  /** The tool installation: its name, its home directory and the cached
      platform (absent until detected). */
  datatype SnykInstallation = SnykInstallation(name: string, home: string, platform: Option<Platform>)

  /** Where the lookup runs: on a Jenkins computer (whose node may be gone,
      which is how an offline agent shows), or with no current computer,
      as in a pipeline or a call from the controller onto an agent. */
  datatype CallContext = OnComputer(node: Option<string>) | NoComputer

  /** Platform detection, which the model does not define: `Platform.of`
      for a named node and `Platform.current` for the local process. Either
      may fail with a tool detection message. */
  datatype Detector = Detector(ofNode: string -> Result<Platform, string>, current: Result<Platform, string>)

  /** A detection the lookup performed. */
  datatype Detection = OfNode(node: string) | OfCurrentProcess

  /** The answer, the entity after the call, and the detections made. */
  datatype PlatformCall = PlatformCall(
    result: Result<Platform, Failure>,
    installation: SnykInstallation,
    detections: seq<Detection>)

  /** The message key of the offline-node failure; its localised text is
      not part of this model. */
  const NodeOfflineMessage: string := "Tools.nodeOffline"

  /** The public constructor: nothing cached yet. */
  function NewSnykInstallation(name: string, home: string): (i: SnykInstallation)
    ensures i.name == name && i.home == home
    ensures i.platform.None?
  {
    SnykInstallation(name, home, None)
  }

  /** The protected constructor: the given platform, possibly `null`, seeds
      the cache. */
  function NewSnykInstallationWith(name: string, home: string, platform: Option<Platform>): (i: SnykInstallation)
    ensures i.name == name && i.home == home
    ensures i.platform == platform
  {
    SnykInstallation(name, home, platform)
  }

  /** `forEnvironment` always answers `null`. */
  function ForEnvironment(i: SnykInstallation, env: map<string, string>): (r: Option<SnykInstallation>)
    ensures r.None?
  {
    None
  }

  /** `forNode` always answers `null`. */
  function ForNode(i: SnykInstallation, node: string): (r: Option<SnykInstallation>)
    ensures r.None?
  {
    None
  }

  /** `getPlatform`: a cached platform is returned without detection;
      otherwise the platform is detected once, from the current computer's
      node or, with no computer, from the local process, and cached on
      success. A computer without a node fails as offline; no failure
      changes the cache. */
  function GetPlatform(i: SnykInstallation, ctx: CallContext, det: Detector): (c: PlatformCall)
    ensures i.platform.Some? ==> c == PlatformCall(Ok(i.platform.value), i, [])
    ensures c.installation.name == i.name && c.installation.home == i.home
    ensures c.result.Err? ==> c.installation == i
    ensures c.result.Ok? ==> c.installation.platform == Some(c.result.value)
    ensures i.platform.None? && ctx == OnComputer(None) ==>
              c.result == Err(ToolDetection(NodeOfflineMessage)) && c.detections == []
    ensures i.platform.None? && ctx.OnComputer? && ctx.node.Some? ==>
              && c.detections == [OfNode(ctx.node.value)]
              && (c.result.Ok? <==> det.ofNode(ctx.node.value).Ok?)
              && (c.result.Ok? ==> c.result.value == det.ofNode(ctx.node.value).value)
              && (c.result.Err? ==> c.result == Err(ToolDetection(det.ofNode(ctx.node.value).error)))
    ensures i.platform.None? && ctx.NoComputer? ==>
              && c.detections == [OfCurrentProcess]
              && (c.result.Ok? <==> det.current.Ok?)
              && (c.result.Ok? ==> c.result.value == det.current.value)
              && (c.result.Err? ==> c.result == Err(ToolDetection(det.current.error)))
  {
    if i.platform.Some? then PlatformCall(Ok(i.platform.value), i, [])
    else
      match ctx
      case OnComputer(None) => PlatformCall(Err(ToolDetection(NodeOfflineMessage)), i, [])
      case OnComputer(Some(node)) => Detected(i, det.ofNode(node), [OfNode(node)])
      case NoComputer => Detected(i, det.current, [OfCurrentProcess])
  }

  /** Caches a successful detection; a failed one propagates unchanged. */
  function Detected(i: SnykInstallation, detected: Result<Platform, string>, detections: seq<Detection>): PlatformCall {
    match detected
    case Ok(p) => PlatformCall(Ok(p), i.(platform := Some(p)), detections)
    case Err(message) => PlatformCall(Err(ToolDetection(message)), i, detections)
  }

  /** The answers, final entity and detections of a series of lookups,
      each on the entity the previous one left behind. */
  datatype Run = Run(results: seq<Result<Platform, Failure>>, installation: SnykInstallation, detections: seq<Detection>)

  function GetPlatformRepeatedly(i: SnykInstallation, calls: seq<(CallContext, Detector)>): (r: Run)
    ensures |r.results| == |calls|
    decreases |calls|
  {
    if calls == [] then Run([], i, [])
    else
      var c := GetPlatform(i, calls[0].0, calls[0].1);
      var rest := GetPlatformRepeatedly(c.installation, calls[1..]);
      Run([c.result] + rest.results, rest.installation, c.detections + rest.detections)
  }

  /** With a platform cached, any series of lookups answers it every time,
      detects nothing and leaves the entity unchanged. */
  lemma {:induction false} CachedPlatformIsStable(i: SnykInstallation, calls: seq<(CallContext, Detector)>)
    requires i.platform.Some?
    ensures var r := GetPlatformRepeatedly(i, calls);
            && r.installation == i
            && r.detections == []
            && forall k :: 0 <= k < |r.results| ==> r.results[k] == Ok(i.platform.value)
    decreases |calls|
  {
    if calls != [] {
      CachedPlatformIsStable(i, calls[1..]);
    }
  }

  /** Idempotence: once a lookup has answered a platform, every later lookup
      in the series answers the same platform. */
  lemma {:induction false} FirstAnswerIsFinal(i: SnykInstallation, calls: seq<(CallContext, Detector)>)
    ensures var r := GetPlatformRepeatedly(i, calls);
            forall j, k :: 0 <= j < k < |r.results| && r.results[j].Ok? ==> r.results[k] == r.results[j]
    decreases |calls|
  {
    if calls != [] {
      var c := GetPlatform(i, calls[0].0, calls[0].1);
      var rest := GetPlatformRepeatedly(c.installation, calls[1..]);
      var r := GetPlatformRepeatedly(i, calls);
      assert r.results == [c.result] + rest.results;
      FirstAnswerIsFinal(c.installation, calls[1..]);
      if c.result.Ok? {
        CachedPlatformIsStable(c.installation, calls[1..]);
      }
      forall j, k | 0 <= j < k < |r.results| && r.results[j].Ok?
        ensures r.results[k] == r.results[j]
      {
        assert r.results[k] == rest.results[k - 1];
        if j > 0 {
          assert r.results[j] == rest.results[j - 1];
        }
      }
    }
  }

  function FailureCount(results: seq<Result<Platform, Failure>>): nat {
    if results == [] then 0
    else (if results[0].Err? then 1 else 0) + FailureCount(results[1..])
  }

  /** Detection is repeated only after a failed lookup: a series makes at
      most one detection more than it has failed answers, and none at all
      when the platform was cached beforehand. */
  lemma {:induction false} DetectsOnlyAfterFailures(i: SnykInstallation, calls: seq<(CallContext, Detector)>)
    ensures var r := GetPlatformRepeatedly(i, calls);
            && |r.detections| <= 1 + FailureCount(r.results)
            && (i.platform.Some? ==> r.detections == [])
    decreases |calls|
  {
    if calls == [] {
    } else if i.platform.Some? {
      CachedPlatformIsStable(i, calls);
    } else {
      var c := GetPlatform(i, calls[0].0, calls[0].1);
      var rest := GetPlatformRepeatedly(c.installation, calls[1..]);
      var r := GetPlatformRepeatedly(i, calls);
      assert r.results[1..] == rest.results;
      DetectsOnlyAfterFailures(c.installation, calls[1..]);
      if c.result.Ok? {
        CachedPlatformIsStable(c.installation, calls[1..]);
      }
    }
  }
}

=== FILE: installer.dfy ===
/** `SnykInstaller.performInstallation`: skip when the marker is fresh,
    otherwise probe for npm and take exactly one of two strategies, the npm
    package install or the direct download of the two wrapper binaries.

    Everything the Java code asks of Jenkins (process launches, remote
    calls, file writes) is an oracle outcome held in `Node`; the clock is
    the two readings in `Clock`; URL resolution is `DownloadService`. The
    result records what came back (the target path, or the exception
    thrown), the target directory afterwards, and the node operations
    issued, in order. */
module Installer {
  import opened Wrappers
  import opened JavaText
  import opened Tools
  import opened Workspace
  import opened Freshness

  /** The installer's configuration. */
  datatype SnykInstaller = SnykInstaller(
    nodeLabel: string,            // the `label` of ToolInstaller
    version: Option<string>,
    updatePolicyIntervalHours: int)

  /** A process launched on the node and waited for: its exit code, or an
      exception while launching or joining it. */
  datatype ProcResult = Exited(code: int) | LaunchFailed

  /** `FileUtils.copyURLToFile`: the whole body, or a failure that may have
      left a partially written file behind. */
  datatype Fetch = Fetched(body: string) | FetchFailed(partial: Option<string>)

  /** One run of the `Downloader` callable: the transfer, and whether the
      node grants the executable bit afterwards. */
  datatype DownloadResult = DownloadResult(fetch: Fetch, executableGranted: bool)

  /** What the node does when asked. */
  datatype Node = Node(
    displayName: string,
    online: bool,                        // a remoting channel exists
    windows: bool,                       // `Functions.isWindows()` on the node
    platform: Result<Platform, string>,  // `Platform.current()` on the node
    npmVersion: ProcResult,              // `npm --version`
    npmInstall: ProcResult,              // `npm install ...`
    mkdirsSucceeds: bool,
    snykDownload: DownloadResult,
    snykToHtmlDownload: DownloadResult,
    failingWrites: set<string>)          // marker files whose write throws

  /** Download URL resolution, which the installer does not define. */
  datatype DownloadService = DownloadService(
    snykUrl: (Option<string>, Platform) -> string,
    snykToHtmlUrl: Platform -> string)

  /** The two clock readings: when freshness is checked, and when the
      marker is written. */
  datatype Clock = Clock(checkedAt: int, stampedAt: int)

  /** An operation issued on the node. */
  datatype Action =
    | Launch(command: seq<string>)
    | DetectPlatform
    | MakeDirs
    | Download(url: string, file: string)
    | MarkExecutable(file: string)
    | Write(file: string, content: string)

  /** The returned path or the thrown exception, the target directory
      afterwards, and the operations issued. */
  datatype Outcome = Outcome(result: Result<string, Failure>, dir: Dir, trace: seq<Action>)

  const NpmVersionCommand: seq<string> := ["npm", "--version"]
  const NpmFailure: string := "Could not install Snyk CLI with npm"
  const BinaryFailure: string := "Could not install Snyk CLI from binary"

  function OfflineMessage(node: string): string {
    "Node '" + node + "' is offline"
  }

  function UndetectableMessage(node: string): string {
    "Could not determine platform on node " + node
  }

  /** The file an operation writes, if it writes one. */
  function FilesOf(a: Action): seq<string> {
    match a
    case Download(_, f) => [f]
    case Write(f, _) => [f]
    case _ => []
  }

  /** The files a trace writes, in order: download targets and markers. */
  function WrittenFiles(trace: seq<Action>): seq<string> {
    if trace == [] then [] else FilesOf(trace[0]) + WrittenFiles(trace[1..])
  }

  lemma {:induction false} WrittenFilesAppend(a: seq<Action>, b: seq<Action>)
    ensures WrittenFiles(a + b) == WrittenFiles(a) + WrittenFiles(b)
    decreases |a|
  {
    if a == [] {
      assert a + b == b;
    } else {
      assert (a + b)[0] == a[0];
      assert (a + b)[1..] == a[1..] + b;
      WrittenFilesAppend(a[1..], b);
    }
  }

  /** The downloads a trace issues, in order, as (URL, file) pairs. */
  function DownloadsIn(trace: seq<Action>): seq<(string, string)> {
    if trace == [] then []
    else (if trace[0].Download? then [(trace[0].url, trace[0].file)] else []) + DownloadsIn(trace[1..])
  }

  lemma {:induction false} DownloadsInAppend(a: seq<Action>, b: seq<Action>)
    ensures DownloadsIn(a + b) == DownloadsIn(a) + DownloadsIn(b)
    decreases |a|
  {
    if a == [] {
      assert a + b == b;
    } else {
      assert (a + b)[0] == a[0];
      assert (a + b)[1..] == a[1..] + b;
      DownloadsInAppend(a[1..], b);
    }
  }

  /** The platform's wrapper file names are two different names, and
      neither is one of the markers. */
  predicate SeparateFiles(p: Platform) {
    && p.snykWrapperFileName != p.snykToHtmlWrapperFileName
    && p.snykWrapperFileName != TimestampFile && p.snykWrapperFileName != InstalledFromFile
    && p.snykToHtmlWrapperFileName != TimestampFile && p.snykToHtmlWrapperFileName != InstalledFromFile
  }

  /** The platform a node reports, if any, has separate wrapper files. */
  predicate ReportsSeparateFiles(node: Node) {
    node.platform.Ok? ==> SeparateFiles(node.platform.value)
  }

  /** An operation on files under the target, as the binary path issues
      them: no process launch and no platform detection. */
  predicate FileOperation(a: Action) {
    a.MakeDirs? || a.Download? || a.MarkExecutable? || a.Write?
  }

  predicate FileOperationsOnly(trace: seq<Action>) {
    forall i :: 0 <= i < |trace| ==> FileOperation(trace[i])
  }

  /** The npm path issues process launches and marker writes only. */
  predicate LaunchesAndWritesOnly(trace: seq<Action>) {
    forall i :: 0 <= i < |trace| ==> trace[i].Launch? || trace[i].Write?
  }

  predicate NoLaunch(trace: seq<Action>) {
    forall i :: 0 <= i < |trace| ==> !trace[i].Launch?
  }

  /* ----------------------------------------------------------- npm path */

  /** The npm package spec: `snyk@` and the trimmed version, where an
      absent or blank version is rendered as `null`. */
  function SnykPackage(version: Option<string>): (spec: string)
    ensures |spec| >= 5 && spec[..5] == "snyk@"
    ensures FixEmptyAndTrim(version).None? ==> spec == "snyk@null"
    ensures FixEmptyAndTrim(version).Some? ==> spec[5..] == Trim(version.value)
  {
    "snyk@" + JavaString(FixEmptyAndTrim(version))
  }

  /** The `npm install` command line: both packages, the CLI at the
      configured version, installed under the target directory. */
  function NpmInstallCommand(target: string, version: Option<string>): (c: seq<string>)
    ensures |c| == 6 && c[..3] == ["npm", "install", "--prefix"] && c[3] == target
    ensures |c[4]| >= 5 && c[4][..5] == "snyk@" && c[5] == "snyk-to-html"
    ensures FixEmptyAndTrim(version).None? ==> c[4] == "snyk@null"
    ensures FixEmptyAndTrim(version).Some? ==> c[4][5..] == Trim(version.value)
  {
    ["npm", "install", "--prefix", target, SnykPackage(version), "snyk-to-html"]
  }

  /** `isNpmAvailable`: `npm --version` exited with 0; a non-zero exit or
      an exception means no. */
  function IsNpmAvailable(node: Node): (available: bool)
    ensures node.npmVersion.LaunchFailed? ==> !available
    ensures node.npmVersion.Exited? ==> (available <==> node.npmVersion.code == 0)
  {
    node.npmVersion == Exited(0)
  }

  /** The npm install throws: its process could not be run, or it succeeded
      and the marker write failed. */
  predicate NpmInstallThrows(node: Node) {
    node.npmInstall.LaunchFailed? || (node.npmInstall == Exited(0) && TimestampFile in node.failingWrites)
  }

  /** `installSnykAsNpmPackage`: a non-zero exit returns the target without
      touching the marker; exit 0 writes the marker; a launch exception or
      a failing marker write is thrown as a tool detection failure. */
  function InstallAsNpmPackage(cfg: SnykInstaller, target: string, dir: Dir, node: Node, stamp: int): (o: Outcome)
    ensures |o.trace| >= 1 && o.trace[0] == Launch(NpmInstallCommand(target, cfg.version))
    ensures |o.trace| <= 2 && (|o.trace| == 2 <==> node.npmInstall == Exited(0))
    ensures |o.trace| == 2 ==> o.trace[1] == Write(TimestampFile, FormatLong(stamp))
    ensures LaunchesAndWritesOnly(o.trace)
    ensures o.result.Ok? ==> o.result.value == target
    ensures o.result.Err? <==> NpmInstallThrows(node)
    ensures o.result.Err? ==> o.result.error == ToolDetection(NpmFailure) && o.dir == dir
    ensures node.npmInstall.Exited? && node.npmInstall.code != 0 ==> o.result.Ok? && o.dir == dir
    ensures o.result.Ok? && node.npmInstall == Exited(0) ==> o.dir == WriteFile(dir, TimestampFile, FormatLong(stamp))
  {
    var launch := [Launch(NpmInstallCommand(target, cfg.version))];
    match node.npmInstall
    case LaunchFailed => Outcome(Err(ToolDetection(NpmFailure)), dir, launch)
    case Exited(code) =>
      if code != 0 then Outcome(Ok(target), dir, launch)
      else
        var marker := FormatLong(stamp);
        var trace := launch + [Write(TimestampFile, marker)];
        if TimestampFile in node.failingWrites then Outcome(Err(ToolDetection(NpmFailure)), dir, trace)
        else Outcome(Ok(target), WriteFile(dir, TimestampFile, marker), trace)
  }

  /* -------------------------------------------------------- binary path */

  /** The state after one step of the binary installation. */
  datatype Step = Step(ok: bool, dir: Dir, trace: seq<Action>)

  /** A `Downloader` run completes: the whole body arrives and, off
      Windows, the executable bit is granted. */
  predicate DownloadSucceeds(d: DownloadResult, windows: bool) {
    d.fetch.Fetched? && (windows || d.executableGranted)
  }

  /** `Downloader.call`: fetch `url` into `file`, then, off Windows, set the
      executable bit and fail if the node refuses it. Only `file` changes. */
  function RunDownloader(dir: Dir, url: string, file: string, d: DownloadResult, windows: bool): (s: Step)
    ensures s.ok <==> DownloadSucceeds(d, windows)
    ensures WrittenFiles(s.trace) == [file] && s.trace[0] == Download(url, file)
    ensures DownloadsIn(s.trace) == [(url, file)]
    ensures FileOperationsOnly(s.trace)
    ensures forall n :: n != file ==> Lookup(s.dir, n) == Lookup(dir, n)
    ensures d.fetch.Fetched? ==> file in s.dir && s.dir[file].content == d.fetch.body
    ensures s.ok && !windows ==> s.dir[file].executable
    ensures d.fetch.FetchFailed? && d.fetch.partial.None? ==> s.dir == dir
  {
    var fetch := [Download(url, file)];
    match d.fetch
    case FetchFailed(partial) =>
      var after := if partial.Some? then WriteFile(dir, file, partial.value) else dir;
      Step(false, after, fetch)
    case Fetched(body) =>
      var written := WriteFile(dir, file, body);
      if windows then Step(true, written, fetch)
      else
        var trace := fetch + [MarkExecutable(file)];
        assert WrittenFiles(trace) == [file] by {
          WrittenFilesAppend(fetch, [MarkExecutable(file)]);
        }
        assert DownloadsIn(trace) == [(url, file)] by {
          DownloadsInAppend(fetch, [MarkExecutable(file)]);
        }
        if d.executableGranted then Step(true, SetExecutable(written, file), trace)
        else Step(false, written, trace)
  }

  function BinaryFailed(dir: Dir, trace: seq<Action>): Outcome {
    Outcome(Err(ToolDetection(BinaryFailure)), dir, trace)
  }

  /** The target is created and both wrappers download completely. */
  predicate DownloadsSucceed(node: Node) {
    && node.mkdirsSucceeds
    && DownloadSucceeds(node.snykDownload, node.windows)
    && DownloadSucceeds(node.snykToHtmlDownload, node.windows)
  }

  /** Every step of the binary installation succeeds: the downloads and
      both marker writes. */
  predicate BinaryInstallSucceeds(node: Node) {
    DownloadsSucceed(node) && InstalledFromFile !in node.failingWrites && TimestampFile !in node.failingWrites
  }

  /** Creating the target and running the `Downloader` for both wrappers,
      the second only if the first succeeded. Only the two wrapper files
      change. */
  function DownloadBoth(dir: Dir, node: Node, p: Platform, snykUrl: string, snykToHtmlUrl: string): (s: Step)
    ensures s.ok <==> DownloadsSucceed(node)
    ensures |s.trace| > 0 && s.trace[0] == MakeDirs
    ensures !node.mkdirsSucceeds ==> s.trace == [MakeDirs] && s.dir == dir
    ensures node.mkdirsSucceeds && !DownloadSucceeds(node.snykDownload, node.windows) ==>
              DownloadsIn(s.trace) == [(snykUrl, p.snykWrapperFileName)]
    ensures node.mkdirsSucceeds && DownloadSucceeds(node.snykDownload, node.windows) ==>
              DownloadsIn(s.trace) == [(snykUrl, p.snykWrapperFileName), (snykToHtmlUrl, p.snykToHtmlWrapperFileName)]
    ensures s.ok ==> WrittenFiles(s.trace) == [p.snykWrapperFileName, p.snykToHtmlWrapperFileName]
    ensures s.ok && SeparateFiles(p) ==>
              && p.snykWrapperFileName in s.dir && p.snykToHtmlWrapperFileName in s.dir
              && s.dir[p.snykWrapperFileName].content == node.snykDownload.fetch.body
              && s.dir[p.snykToHtmlWrapperFileName].content == node.snykToHtmlDownload.fetch.body
              && (!node.windows ==> s.dir[p.snykWrapperFileName].executable
                                    && s.dir[p.snykToHtmlWrapperFileName].executable)
    ensures forall n :: n != p.snykWrapperFileName && n != p.snykToHtmlWrapperFileName
                        ==> Lookup(s.dir, n) == Lookup(dir, n)
    ensures FileOperationsOnly(s.trace)
  {
    if !node.mkdirsSucceeds then Step(false, dir, [MakeDirs])
    else
      var s1 := RunDownloader(dir, snykUrl, p.snykWrapperFileName, node.snykDownload, node.windows);
      var t1 := [MakeDirs] + s1.trace;
      assert DownloadsIn(t1) == DownloadsIn(s1.trace) by {
        DownloadsInAppend([MakeDirs], s1.trace);
      }
      if !s1.ok then Step(false, s1.dir, t1)
      else
        var s2 := RunDownloader(s1.dir, snykToHtmlUrl, p.snykToHtmlWrapperFileName, node.snykToHtmlDownload, node.windows);
        var t2 := t1 + s2.trace;
        assert WrittenFiles(t2) == [p.snykWrapperFileName, p.snykToHtmlWrapperFileName] by {
          WrittenFilesAppend([MakeDirs], s1.trace);
          WrittenFilesAppend(t1, s2.trace);
        }
        assert DownloadsIn(t2) == DownloadsIn(t1) + DownloadsIn(s2.trace) by {
          DownloadsInAppend(t1, s2.trace);
        }
        assert SeparateFiles(p) ==> Lookup(s1.dir, p.snykWrapperFileName) == Lookup(s2.dir, p.snykWrapperFileName);
        Step(s2.ok, s2.dir, t2)
  }

  /** The trace extended by one write. */
  function AppendWrite(trace: seq<Action>, file: string, content: string): (t: seq<Action>)
    ensures |t| == |trace| + 1 && t[..|trace|] == trace && t[|trace|] == Write(file, content)
    ensures WrittenFiles(t) == WrittenFiles(trace) + [file]
    ensures FileOperationsOnly(trace) ==> FileOperationsOnly(t)
  {
    WrittenFilesAppend(trace, [Write(file, content)]);
    trace + [Write(file, content)]
  }

  /** Writing `.installedFrom` and then `.timestamp` after the downloads
      in `trace`. A failing write stops the installation; the marker is
      never written unless the provenance was. */
  function WriteMarkers(target: string, dir: Dir, node: Node, snykUrl: string, stamp: int,
                        trace: seq<Action>): (o: Outcome)
    ensures o.result.Ok? <==> InstalledFromFile !in node.failingWrites && TimestampFile !in node.failingWrites
    ensures o.result.Ok? ==> o.result.value == target
    ensures o.result.Err? ==> o.result.error == ToolDetection(BinaryFailure)
    ensures o.result.Err? ==> Lookup(o.dir, TimestampFile) == Lookup(dir, TimestampFile)
    ensures o.result.Ok? ==>
              && WrittenFiles(o.trace) == WrittenFiles(trace) + [InstalledFromFile, TimestampFile]
              && InstalledFromFile in o.dir && o.dir[InstalledFromFile].content == snykUrl
              && TimestampFile in o.dir && o.dir[TimestampFile].content == FormatLong(stamp)
    ensures forall n :: n != InstalledFromFile && n != TimestampFile ==> Lookup(o.dir, n) == Lookup(dir, n)
    ensures |trace| <= |o.trace| && o.trace[..|trace|] == trace
    ensures FileOperationsOnly(trace) ==> FileOperationsOnly(o.trace)
  {
    var t1 := AppendWrite(trace, InstalledFromFile, snykUrl);
    if InstalledFromFile in node.failingWrites then BinaryFailed(dir, t1)
    else
      var d1 := WriteFile(dir, InstalledFromFile, snykUrl);
      var marker := FormatLong(stamp);
      var t2 := AppendWrite(t1, TimestampFile, marker);
      if TimestampFile in node.failingWrites then BinaryFailed(d1, t2)
      else
        Outcome(Ok(target), WriteFile(d1, TimestampFile, marker), t2)
  }

  /** The `try` block of `installSnykAsSingleBinary`: create the target,
      download both wrappers, then write `.installedFrom` (the main
      wrapper's URL) and `.timestamp`. Any failure is thrown as a tool
      detection failure, and leaves the freshness marker as it was. */
  function DownloadAndMark(target: string, dir: Dir, node: Node, p: Platform,
                           snykUrl: string, snykToHtmlUrl: string, stamp: int): (o: Outcome)
    ensures o.result.Ok? <==> BinaryInstallSucceeds(node)
    ensures o.result.Ok? ==> o.result.value == target
    ensures o.result.Err? ==> o.result.error == ToolDetection(BinaryFailure)
    ensures o.result.Err? && SeparateFiles(p) ==> Lookup(o.dir, TimestampFile) == Lookup(dir, TimestampFile)
    ensures o.result.Ok? ==>
              && WrittenFiles(o.trace) == [p.snykWrapperFileName, p.snykToHtmlWrapperFileName,
                                           InstalledFromFile, TimestampFile]
              && InstalledFromFile in o.dir && o.dir[InstalledFromFile].content == snykUrl
              && TimestampFile in o.dir && o.dir[TimestampFile].content == FormatLong(stamp)
    ensures o.result.Ok? && SeparateFiles(p) ==>
              && p.snykWrapperFileName in o.dir && p.snykToHtmlWrapperFileName in o.dir
              && o.dir[p.snykWrapperFileName].content == node.snykDownload.fetch.body
              && o.dir[p.snykToHtmlWrapperFileName].content == node.snykToHtmlDownload.fetch.body
              && (!node.windows ==> o.dir[p.snykWrapperFileName].executable
                                    && o.dir[p.snykToHtmlWrapperFileName].executable)
    ensures forall n :: n != p.snykWrapperFileName && n != p.snykToHtmlWrapperFileName
                        && n != InstalledFromFile && n != TimestampFile
                        ==> Lookup(o.dir, n) == Lookup(dir, n)
    ensures FileOperationsOnly(o.trace)
  {
    var s := DownloadBoth(dir, node, p, snykUrl, snykToHtmlUrl);
    if !s.ok then BinaryFailed(s.dir, s.trace)
    else
      var o := WriteMarkers(target, s.dir, node, snykUrl, stamp, s.trace);
      assert SeparateFiles(p) ==> Lookup(o.dir, p.snykWrapperFileName) == Lookup(s.dir, p.snykWrapperFileName);
      assert SeparateFiles(p) ==> Lookup(o.dir, p.snykToHtmlWrapperFileName) == Lookup(s.dir, p.snykToHtmlWrapperFileName);
      o
  }

  /** `installSnykAsSingleBinary`: an offline node and an undetectable
      platform are thrown as plain I/O failures before anything is written
      (both happen outside the `try`); everything after is `DownloadAndMark`. */
  function InstallAsSingleBinary(cfg: SnykInstaller, target: string, dir: Dir, node: Node,
                                 urls: DownloadService, stamp: int): (o: Outcome)
    ensures !node.online ==> o == Outcome(Err(IO(OfflineMessage(node.displayName))), dir, [])
    ensures node.online && node.platform.Err? ==>
              o == Outcome(Err(IO(UndetectableMessage(node.displayName))), dir, [DetectPlatform])
    ensures o.result.Ok? ==> o.result.value == target && node.online && node.platform.Ok?
    ensures node.online && node.platform.Ok? ==>
              && (o.result.Ok? <==> BinaryInstallSucceeds(node))
              && (o.result.Err? ==> o.result.error == ToolDetection(BinaryFailure))
    ensures o.result.Ok? ==>
              var p := node.platform.value;
              && |o.trace| > 0 && o.trace[0] == DetectPlatform
              && InstalledFromFile in o.dir && TimestampFile in o.dir
              && WrittenFiles(o.trace) == [p.snykWrapperFileName, p.snykToHtmlWrapperFileName,
                                           InstalledFromFile, TimestampFile]
              && o.dir[InstalledFromFile].content == urls.snykUrl(cfg.version, p)
              && o.dir[TimestampFile].content == FormatLong(stamp)
    ensures o.result.Ok? && ReportsSeparateFiles(node) ==>
              var p := node.platform.value;
              && p.snykWrapperFileName in o.dir && p.snykToHtmlWrapperFileName in o.dir
              && o.dir[p.snykWrapperFileName].content == node.snykDownload.fetch.body
              && o.dir[p.snykToHtmlWrapperFileName].content == node.snykToHtmlDownload.fetch.body
              && (!node.windows ==> o.dir[p.snykWrapperFileName].executable
                                    && o.dir[p.snykToHtmlWrapperFileName].executable)
    ensures node.online && node.platform.Ok? ==>
              var p := node.platform.value;
              forall n :: n != p.snykWrapperFileName && n != p.snykToHtmlWrapperFileName
                          && n != InstalledFromFile && n != TimestampFile
                          ==> Lookup(o.dir, n) == Lookup(dir, n)
    ensures o.result.Err? && ReportsSeparateFiles(node) ==> Lookup(o.dir, TimestampFile) == Lookup(dir, TimestampFile)
    ensures NoLaunch(o.trace)
  {
    if !node.online then Outcome(Err(IO(OfflineMessage(node.displayName))), dir, [])
    else
      match node.platform
      case Err(_) => Outcome(Err(IO(UndetectableMessage(node.displayName))), dir, [DetectPlatform])
      case Ok(p) =>
        var o := DownloadAndMark(target, dir, node, p, urls.snykUrl(cfg.version, p), urls.snykToHtmlUrl(p), stamp);
        assert WrittenFiles([DetectPlatform] + o.trace) == WrittenFiles(o.trace) by {
          WrittenFilesAppend([DetectPlatform], o.trace);
        }
        o.(trace := [DetectPlatform] + o.trace)
  }

  /* ---------------------------------------------------- the state machine */

  /** The installation proper, once the marker was found stale: the answer
      of `npm --version` selects exactly one strategy. */
  function InstallWithStrategy(cfg: SnykInstaller, target: string, dir: Dir, node: Node,
                               urls: DownloadService, stamp: int): (o: Outcome)
    ensures IsNpmAvailable(node) ==>
              && |o.trace| >= 1 && o.trace[0] == Launch(NpmInstallCommand(target, cfg.version))
              && |o.trace| <= 2 && (|o.trace| == 2 ==> o.trace[1] == Write(TimestampFile, FormatLong(stamp)))
              && LaunchesAndWritesOnly(o.trace)
    ensures !IsNpmAvailable(node) ==> NoLaunch(o.trace)
    ensures o.result.Ok? ==> o.result.value == target
    ensures IsNpmAvailable(node) ==>
              && (o.result.Err? <==> NpmInstallThrows(node))
              && (o.result.Err? ==> o.result.error == ToolDetection(NpmFailure) && o.dir == dir)
              && (node.npmInstall.Exited? && node.npmInstall.code != 0 ==> o.dir == dir)
              && (o.result.Ok? && node.npmInstall == Exited(0) ==>
                    o.dir == WriteFile(dir, TimestampFile, FormatLong(stamp)))
    ensures !IsNpmAvailable(node) && !node.online ==>
              o == Outcome(Err(IO(OfflineMessage(node.displayName))), dir, [])
    ensures !IsNpmAvailable(node) && node.online && node.platform.Err? ==>
              o == Outcome(Err(IO(UndetectableMessage(node.displayName))), dir, [DetectPlatform])
    ensures !IsNpmAvailable(node) && node.online && node.platform.Ok? ==>
              && (o.result.Ok? <==> BinaryInstallSucceeds(node))
              && (o.result.Err? ==> o.result.error == ToolDetection(BinaryFailure))
    ensures !IsNpmAvailable(node) && o.result.Ok? ==>
              && node.online && node.platform.Ok?
              && var p := node.platform.value;
              && WrittenFiles(o.trace) == [p.snykWrapperFileName, p.snykToHtmlWrapperFileName,
                                           InstalledFromFile, TimestampFile]
              && InstalledFromFile in o.dir && o.dir[InstalledFromFile].content == urls.snykUrl(cfg.version, p)
              && TimestampFile in o.dir && o.dir[TimestampFile].content == FormatLong(stamp)
    ensures !IsNpmAvailable(node) && node.online && node.platform.Ok? ==>
              var p := node.platform.value;
              forall n :: n != p.snykWrapperFileName && n != p.snykToHtmlWrapperFileName
                          && n != InstalledFromFile && n != TimestampFile
                          ==> Lookup(o.dir, n) == Lookup(dir, n)
    ensures o.result.Err? && ReportsSeparateFiles(node) ==> Lookup(o.dir, TimestampFile) == Lookup(dir, TimestampFile)
    ensures Lookup(o.dir, TimestampFile) != Lookup(dir, TimestampFile) && ReportsSeparateFiles(node) ==>
              o.result.Ok? && TimestampFile in o.dir && o.dir[TimestampFile].content == FormatLong(stamp)
  {
    if IsNpmAvailable(node) then InstallAsNpmPackage(cfg, target, dir, node, stamp)
    else InstallAsSingleBinary(cfg, target, dir, node, urls, stamp)
  }

  /** `performInstallation`: a fresh marker returns the target with no
      operation at all; otherwise `npm --version` is launched and its answer
      selects exactly one strategy. Every normal return is the target; a
      thrown failure never changes the freshness marker. */
  function PerformInstallation(cfg: SnykInstaller, target: string, dir: Dir, node: Node,
                               urls: DownloadService, clock: Clock): (o: Outcome)
    ensures IsUpToDate(dir, clock.checkedAt, cfg.updatePolicyIntervalHours) ==> o == Outcome(Ok(target), dir, [])
    ensures !IsUpToDate(dir, clock.checkedAt, cfg.updatePolicyIntervalHours) ==>
              && |o.trace| >= 1 && o.trace[0] == Launch(NpmVersionCommand)
              && o.trace[1..] == InstallWithStrategy(cfg, target, dir, node, urls, clock.stampedAt).trace
              && o.result == InstallWithStrategy(cfg, target, dir, node, urls, clock.stampedAt).result
              && o.dir == InstallWithStrategy(cfg, target, dir, node, urls, clock.stampedAt).dir
    ensures o.result.Ok? ==> o.result.value == target
    ensures o.result.Err? && ReportsSeparateFiles(node) ==> Lookup(o.dir, TimestampFile) == Lookup(dir, TimestampFile)
    ensures Lookup(o.dir, TimestampFile) != Lookup(dir, TimestampFile) && ReportsSeparateFiles(node) ==>
              o.result.Ok? && TimestampFile in o.dir && o.dir[TimestampFile].content == FormatLong(clock.stampedAt)
  {
    if IsUpToDate(dir, clock.checkedAt, cfg.updatePolicyIntervalHours) then Outcome(Ok(target), dir, [])
    else
      var install := InstallWithStrategy(cfg, target, dir, node, urls, clock.stampedAt);
      var trace := [Launch(NpmVersionCommand)] + install.trace;
      assert trace[1..] == install.trace;
      Outcome(install.result, install.dir, trace)
  }
}

=== FILE: installer_properties.dfy ===
/** Properties of `performInstallation` that relate several calls, or a
    call and the freshness check that follows it. */
module InstallerProperties {
  import opened Wrappers
  import opened JavaText
  import opened Tools
  import opened Workspace
  import opened Freshness
  import opened Installer

  /** Idempotence: once a call has written the marker, a second call whose
      clock reading is within the policy interval of that marker returns
      the same path and issues no operation at all, whatever the node
      would have answered. */
  lemma {:induction false} SecondCallIsNoOp(cfg: SnykInstaller, target: string, dir: Dir,
                                            node: Node, urls: DownloadService, clock: Clock,
                                            node': Node, urls': DownloadService, clock': Clock)
    requires ReportsSeparateFiles(node)
    requires IsLong(clock.stampedAt)
    requires clock'.checkedAt <= clock.stampedAt
             || clock'.checkedAt - clock.stampedAt < IntervalMillis(cfg.updatePolicyIntervalHours)
    ensures var first := PerformInstallation(cfg, target, dir, node, urls, clock);
            Lookup(first.dir, TimestampFile) != Lookup(dir, TimestampFile) ==>
            && first.result == Ok(target)
            && PerformInstallation(cfg, target, first.dir, node', urls', clock') == Outcome(Ok(target), first.dir, [])
  {
    var first := PerformInstallation(cfg, target, dir, node, urls, clock);
    if Lookup(first.dir, TimestampFile) != Lookup(dir, TimestampFile) {
      assert FormatLong(clock.stampedAt) + "" == FormatLong(clock.stampedAt);
      FreshAfterStamp(first.dir, clock.stampedAt, "", clock'.checkedAt, cfg.updatePolicyIntervalHours);
    }
  }

  /** npm soft failure: a non-zero exit of `npm install` returns the target
      and leaves the whole directory, marker included, as it was, so the
      next run tries again. */
  lemma NpmSoftFailureKeepsMarker(cfg: SnykInstaller, target: string, dir: Dir, node: Node,
                                  urls: DownloadService, clock: Clock)
    requires !IsUpToDate(dir, clock.checkedAt, cfg.updatePolicyIntervalHours)
    requires IsNpmAvailable(node)
    requires node.npmInstall.Exited? && node.npmInstall.code != 0
    ensures var o := PerformInstallation(cfg, target, dir, node, urls, clock);
            && o.result == Ok(target)
            && o.dir == dir
            && o.trace == [Launch(NpmVersionCommand), Launch(NpmInstallCommand(target, cfg.version))]
  {
  }

  /** A successful npm install stamps the marker, which then reads back as
      the clock reading taken after the install. */
  lemma {:induction false} NpmSuccessStampsMarker(cfg: SnykInstaller, target: string, dir: Dir, node: Node,
                                                  urls: DownloadService, clock: Clock)
    requires IsLong(clock.stampedAt)
    requires !IsUpToDate(dir, clock.checkedAt, cfg.updatePolicyIntervalHours)
    requires IsNpmAvailable(node) && node.npmInstall == Exited(0)
    requires TimestampFile !in node.failingWrites
    ensures var o := PerformInstallation(cfg, target, dir, node, urls, clock);
            && o.result == Ok(target)
            && o.dir == WriteFile(dir, TimestampFile, FormatLong(clock.stampedAt))
            && MarkerValue(o.dir[TimestampFile].content) == clock.stampedAt
  {
    MarkerRoundTrip(clock.stampedAt, "");
    assert FormatLong(clock.stampedAt) + "" == FormatLong(clock.stampedAt);
  }

  /** A refused executable bit on a non-Windows node fails the binary
      installation after the main wrapper is already on disk; the marker is
      untouched, so a call at the same clock reading is not up to date
      either and retries. */
  lemma RefusedExecutableBitForcesRetry(cfg: SnykInstaller, target: string, dir: Dir, node: Node,
                                        urls: DownloadService, clock: Clock)
    requires ReportsSeparateFiles(node)
    requires !IsUpToDate(dir, clock.checkedAt, cfg.updatePolicyIntervalHours)
    requires !IsNpmAvailable(node)
    requires node.online && node.platform.Ok? && node.mkdirsSucceeds && !node.windows
    requires node.snykDownload.fetch.Fetched? && !node.snykDownload.executableGranted
    ensures var o := PerformInstallation(cfg, target, dir, node, urls, clock);
            && o.result == Err(ToolDetection(BinaryFailure))
            && node.platform.value.snykWrapperFileName in o.dir
            && Lookup(o.dir, TimestampFile) == Lookup(dir, TimestampFile)
            && !IsUpToDate(o.dir, clock.checkedAt, cfg.updatePolicyIntervalHours)
  {
  }

  /** The end-to-end binary installation on a non-Windows node with no
      earlier marker: both wrappers are downloaded under the platform's
      names and made executable, `.installedFrom` holds the main wrapper's
      URL, and `.timestamp` reads back as the clock reading. */
  lemma {:induction false} BinaryInstallEndToEnd(cfg: SnykInstaller, target: string, dir: Dir, node: Node,
                                                 urls: DownloadService, clock: Clock)
    requires ReportsSeparateFiles(node)
    requires IsLong(clock.stampedAt)
    requires TimestampFile !in dir
    requires !IsNpmAvailable(node)
    requires node.online && node.platform.Ok? && node.mkdirsSucceeds && !node.windows
    requires node.snykDownload.fetch.Fetched? && node.snykDownload.executableGranted
    requires node.snykToHtmlDownload.fetch.Fetched? && node.snykToHtmlDownload.executableGranted
    requires node.failingWrites == {}
    ensures var o := PerformInstallation(cfg, target, dir, node, urls, clock);
            var p := node.platform.value;
            && o.result == Ok(target)
            && WrittenFiles(o.trace) == [p.snykWrapperFileName, p.snykToHtmlWrapperFileName,
                                         InstalledFromFile, TimestampFile]
            && p.snykWrapperFileName in o.dir && o.dir[p.snykWrapperFileName].executable
            && p.snykToHtmlWrapperFileName in o.dir && o.dir[p.snykToHtmlWrapperFileName].executable
            && o.dir[InstalledFromFile].content == urls.snykUrl(cfg.version, p)
            && MarkerValue(o.dir[TimestampFile].content) == clock.stampedAt
  {
    var o := PerformInstallation(cfg, target, dir, node, urls, clock);
    assert [Launch(NpmVersionCommand)] + o.trace[1..] == o.trace;
    WrittenFilesAppend([Launch(NpmVersionCommand)], o.trace[1..]);
    MarkerRoundTrip(clock.stampedAt, "");
    assert FormatLong(clock.stampedAt) + "" == FormatLong(clock.stampedAt);
  }

  /** The npm command line: the version is trimmed, and a blank or absent
      version is passed as the literal `null`. */
  lemma NpmCommandLine(target: string)
    ensures NpmInstallCommand(target, Some(" 1.2.3\n"))
            == ["npm", "install", "--prefix", target, "snyk@1.2.3", "snyk-to-html"]
    ensures NpmInstallCommand(target, Some("  "))
            == ["npm", "install", "--prefix", target, "snyk@null", "snyk-to-html"]
    ensures NpmInstallCommand(target, None)
            == ["npm", "install", "--prefix", target, "snyk@null", "snyk-to-html"]
  {
    var padded := " 1.2.3\n";
    assert SkipLeading(padded, 1) == 1;
    assert SkipLeading(padded, 0) == 1;
    assert SkipTrailing(padded, 1, 6) == 6;
    assert SkipTrailing(padded, 1, 7) == 6;
    assert padded[1..6] == "1.2.3";
    assert Trim(padded) == "1.2.3";
    assert FixEmptyAndTrim(Some(padded)) == Some("1.2.3");
    assert SnykPackage(Some(padded)) == "snyk@1.2.3";
    var blank := "  ";
    assert forall k :: 0 <= k < |blank| ==> IsTrimmable(blank[k]);
    assert FixEmptyAndTrim(Some(blank)) == None;
  }
}

=== FILE: java_text.dfy ===
/** The Java and commons-lang string operations the installer relies on:
    `String.trim`, `StringUtils.chomp`, `Long.parseLong` and
    `String.valueOf(long)`, over `string` = `seq<char>`. */
module JavaText {
  import opened Wrappers

  const LongMin: int := -0x8000_0000_0000_0000
  const LongMax: int := 0x7FFF_FFFF_FFFF_FFFF

  /** The values of a Java `long`. */
  predicate IsLong(n: int) {
    LongMin <= n <= LongMax
  }

  predicate IsDigit(c: char) {
    '0' <= c <= '9'
  }

  predicate AllDigits(s: string) {
    forall i :: 0 <= i < |s| ==> IsDigit(s[i])
  }

  function DigitValue(c: char): (d: nat)
    requires IsDigit(c)
    ensures d < 10
  {
    c as int - '0' as int
  }

  function DigitChar(d: nat): (c: char)
    requires d < 10
    ensures IsDigit(c) && DigitValue(c) == d
  {
    ('0' as int + d) as char
  }

  /** The number denoted by a string of decimal digits, most significant
      first; leading zeros are allowed. */
  function DigitsValue(s: string): nat
    requires AllDigits(s)
  {
    if s == [] then 0 else DigitsValue(s[..|s| - 1]) * 10 + DigitValue(s[|s| - 1])
  }

  /* ---------------------------------------------------------------- trim */

  /** Java's `String.trim`: every character at or below U+0020 counts as
      white space. */
  predicate IsTrimmable(c: char) {
    c <= ' '
  }

  /** The index of the first non-blank character at or after `i`, or `|s|`
      (the first loop of `String.trim`). */
  function SkipLeading(s: string, i: nat): (n: nat)
    requires i <= |s|
    ensures i <= n <= |s|
    ensures forall k :: i <= k < n ==> IsTrimmable(s[k])
    ensures n < |s| ==> !IsTrimmable(s[n])
    decreases |s| - i
  {
    if i < |s| && IsTrimmable(s[i]) then SkipLeading(s, i + 1) else i
  }

  /** The end of the text before `j` once trailing blanks are dropped,
      never going below `lo` (the second loop of `String.trim`). */
  function SkipTrailing(s: string, lo: nat, j: nat): (m: nat)
    requires lo <= j <= |s|
    ensures lo <= m <= j
    ensures forall k :: m <= k < j ==> IsTrimmable(s[k])
    ensures m > lo ==> !IsTrimmable(s[m - 1])
    decreases j
  {
    if j > lo && IsTrimmable(s[j - 1]) then SkipTrailing(s, lo, j - 1) else j
  }

  /** `r` is the infix of `s` at offset `i`, and only white space lies
      before and after it. */
  predicate CutFrom(s: string, r: string, i: int) {
    && 0 <= i && i + |r| <= |s| && r == s[i..i + |r|]
    && (forall k :: 0 <= k < i ==> IsTrimmable(s[k]))
    && (forall k :: i + |r| <= k < |s| ==> IsTrimmable(s[k]))
  }

  /** `String.trim`: the longest infix of `s` that neither starts nor ends
      with white space; only white space is cut off on either side. */
  function Trim(s: string): (r: string)
    ensures exists i :: CutFrom(s, r, i)
    ensures r != [] ==> !IsTrimmable(r[0]) && !IsTrimmable(r[|r| - 1])
    ensures r == [] <==> forall k :: 0 <= k < |s| ==> IsTrimmable(s[k])
  {
    var start := SkipLeading(s, 0);
    var end := SkipTrailing(s, start, |s|);
    var r := s[start..end];
    assert CutFrom(s, r, start);
    assert r != [] ==> r[0] == s[start] && r[|r| - 1] == s[end - 1];
    r
  }

  /** Hudson's `Util.fixEmptyAndTrim`: `null` stays `null`, otherwise the
      string is trimmed and an empty result becomes `null`. */
  function FixEmptyAndTrim(v: Option<string>): (r: Option<string>)
    ensures r.Some? ==> v.Some? && r.value == Trim(v.value) && r.value != []
    ensures r.None? <==> v.None? || forall k :: 0 <= k < |v.value| ==> IsTrimmable(v.value[k])
  {
    match v
    case None => None
    case Some(s) => if Trim(s) == [] then None else Some(Trim(s))
  }

  /** Java string concatenation of a possibly-null string: `null` is
      rendered as the four characters `null`. */
  function JavaString(v: Option<string>): string {
    match v
    case None => "null"
    case Some(s) => s
  }

  /* --------------------------------------------------------------- chomp */

  predicate IsLineBreak(c: char) {
    c == '\n' || c == '\r'
  }

  /** The terminators `StringUtils.chomp` removes. */
  predicate IsTerminator(t: string) {
    t == "\r\n" || t == "\n" || t == "\r"
  }

  /** commons-lang `StringUtils.chomp`: removes one trailing line terminator,
      where `\r\n` counts as a single terminator. */
  function Chomp(s: string): (r: string)
    ensures |r| <= |s| && r == s[..|r|]
    ensures r == s <==> s == [] || !IsLineBreak(s[|s| - 1])
    ensures r != s ==> IsTerminator(s[|r|..])
    ensures |s| >= 2 && s[|s| - 2..] == "\r\n" ==> |r| == |s| - 2
  {
    if |s| >= 2 && s[|s| - 2..] == "\r\n" then s[..|s| - 2]
    else if s != [] && IsLineBreak(s[|s| - 1]) then s[..|s| - 1]
    else s
  }

  /** Chomp undoes the appending of one line terminator to a text that does
      not itself end in a line break. */
  lemma ChompAppendedTerminator(s: string, t: string)
    requires s == [] || !IsLineBreak(s[|s| - 1])
    requires t == [] || IsTerminator(t)
    ensures Chomp(s + t) == s
  {
    var u := s + t;
    if t == "\r\n" {
      assert u[|u| - 2..] == t;
      assert u[..|u| - 2] == s;
    } else if t == "\n" || t == "\r" {
      assert u[..|u| - 1] == s;
      if |u| >= 2 {
        assert u[|u| - 2..] != "\r\n" by {
          assert u[|u| - 2..][0] == u[|u| - 2];
          if s != [] {
            assert u[|u| - 2] == s[|s| - 1];
          }
        }
      }
    } else {
      assert u == s;
    }
  }

  /* ----------------------------------------------------- Long.parseLong */

  /** `Long.parseLong` in radix 10: an optional `+` or `-`, then at least
      one digit, and a value that fits in a `long`. Anything else raises
      `NumberFormatException`, modelled as `None`. */
  function ParseLong(s: string): (r: Option<int>)
    ensures r.Some? ==> IsLong(r.value)
    ensures s == [] ==> r.None?
    ensures r.Some? ==> forall i :: 0 < i < |s| ==> IsDigit(s[i])
    ensures r.Some? ==> IsDigit(s[0]) || (|s| >= 2 && (s[0] == '-' || s[0] == '+'))
    ensures r.Some? && s[0] == '-' ==> r.value <= 0
    ensures r.Some? && s[0] != '-' ==> r.value >= 0
    ensures AllDigits(s) && s != [] && DigitsValue(s) <= LongMax ==> r == Some(DigitsValue(s))
    ensures AllDigits(s) && s != [] && DigitsValue(s) > LongMax ==> r.None?
    ensures |s| >= 2 && s[0] == '-' && AllDigits(s[1..]) ==>
              && (r.Some? <==> IsLong(-(DigitsValue(s[1..]) as int)))
              && (r.Some? ==> r.value == -(DigitsValue(s[1..]) as int))
    ensures |s| >= 2 && s[0] == '+' && AllDigits(s[1..]) ==>
              && (r.Some? <==> DigitsValue(s[1..]) <= LongMax)
              && (r.Some? ==> r.value == DigitsValue(s[1..]))
  {
    if s == [] then None
    else if s[0] == '-' || s[0] == '+' then
      var digits := s[1..];
      if digits == [] || !AllDigits(digits) then None
      else
        var v: int := if s[0] == '-' then -(DigitsValue(digits) as int) else DigitsValue(digits);
        if IsLong(v) then Some(v) else None
    else if AllDigits(s) then
      var v := DigitsValue(s);
      if IsLong(v) then Some(v) else None
    else None
  }

  /* ------------------------------------------------- String.valueOf(long) */

  /** The canonical decimal digits of a natural number: no leading zero
      except for zero itself. */
  function NatDigits(n: nat): (s: string)
    ensures s != [] && AllDigits(s)
    ensures DigitsValue(s) == n
    ensures |s| > 1 ==> s[0] != '0'
    decreases n
  {
    if n < 10 then [DigitChar(n)]
    else
      var prefix := NatDigits(n / 10);
      var s := prefix + [DigitChar(n % 10)];
      assert s[..|s| - 1] == prefix;
      s
  }

  /** `String.valueOf(long)`: a `-` for negative values, then the canonical
      digits of the magnitude. */
  function FormatLong(n: int): (s: string)
    ensures s != [] && !IsLineBreak(s[|s| - 1])
    ensures n >= 0 ==> AllDigits(s) && DigitsValue(s) == n && (|s| > 1 ==> s[0] != '0')
    ensures n < 0 ==> && |s| >= 2 && s[0] == '-' && AllDigits(s[1..])
                      && DigitsValue(s[1..]) == -n && s[1] != '0'
  {
    if n < 0 then
      var digits := NatDigits(-n);
      var s := "-" + digits;
      assert s[1..] == digits;
      s
    else NatDigits(n)
  }

  /** Every `long` written with `String.valueOf` parses back to itself. */
  lemma {:induction false} ParseFormatRoundTrip(n: int)
    requires IsLong(n)
    ensures ParseLong(FormatLong(n)) == Some(n)
  {
    var s := FormatLong(n);
    if n < 0 {
      var digits := NatDigits(-n);
      assert s[1..] == digits;
      assert DigitsValue(s[1..]) == -n;
    } else {
      var digits := NatDigits(n);
      assert s[0] != '-' && s[0] != '+' by {
        assert IsDigit(digits[0]);
      }
    }
  }
}

=== FILE: tools.dfy ===
/** Types shared by the installer and the tool installation: the platform
    descriptor and the two checked exception types the core throws. */
module Tools {

  /** The platform descriptor of a node. The enumeration of supported
      platforms and its detection are external; the installer only reads the
      two wrapper file names it downloads to. */
  datatype Platform = Platform(
    id: string,
    snykWrapperFileName: string,
    snykToHtmlWrapperFileName: string)

  /** The exceptions the core lets escape to its caller. */
  datatype Failure =
    | ToolDetection(message: string)  // hudson ToolDetectionException
    | IO(message: string)             // java.io.IOException
}

=== FILE: workspace.dfy ===
/** The installation target directory on the node, as the installer sees it:
    the files directly under it, by name. */
module Workspace {
  import opened Wrappers

  /** A regular file: its text and whether its executable bit is set. */
  datatype FileEntry = FileEntry(content: string, executable: bool)

  type Dir = map<string, FileEntry>

  /** The freshness marker: epoch milliseconds of the last installation. */
  const TimestampFile: string := ".timestamp"

  /** The provenance marker: the URL the main binary was downloaded from. */
  const InstalledFromFile: string := ".installedFrom"

  function Lookup(d: Dir, name: string): (e: Option<FileEntry>)
    ensures e.Some? <==> name in d
    ensures e.Some? ==> e.value == d[name]
  {
    if name in d then Some(d[name]) else None
  }

  /** Writes `content` to `name`, creating or truncating the file. An
      existing file keeps its permission bits; a new one is not executable. */
  function WriteFile(d: Dir, name: string, content: string): (d': Dir)
    ensures d'.Keys == d.Keys + {name}
    ensures d'[name].content == content
    ensures d'[name].executable <==> name in d && d[name].executable
    ensures forall n :: n in d && n != name ==> d'[n] == d[n]
  {
    var executable := name in d && d[name].executable;
    d[name := FileEntry(content, executable)]
  }

  /** Sets the executable bit of an existing file and nothing else. */
  function SetExecutable(d: Dir, name: string): (d': Dir)
    requires name in d
    ensures d'.Keys == d.Keys
    ensures d'[name] == FileEntry(d[name].content, true)
    ensures forall n :: n in d && n != name ==> d'[n] == d[n]
  {
    d[name := d[name].(executable := true)]
  }
}

=== FILE: wrappers.dfy ===
/** Option and Result, standing in for Java's `null` and for thrown
    exceptions throughout the model. */
module Wrappers {

  /** A value that may be absent (Java `null`). */
  datatype Option<+T> = None | Some(value: T)

  /** Either a value or the error that was thrown instead of returning it. */
  datatype Result<+T, +E> = Ok(value: T) | Err(error: E)
}
